=== FILE: README.md ===
# User authentication: a Dafny model

This project models the user-authentication core of the `alx-backend-user-data`
repository:

- the `DB` class of the user-authentication service, over the `users` table;
- its `Auth` class, covering registration, login check, sessions and password reset;
- the request filter `Auth.require_auth` that the basic-authentication and
  session-authentication versions of the API share, with its two small accessors.

The model is written as pure functions over an immutable table. Every
operation that writes returns the new table together with the result or the
error the Python code would raise. Operations that only read the table
(`find_user_by`, `valid_login`, `get_user_from_session_id`) return just
their result.

Modules, one per source file or component:

- `Outcomes` holds `Option`, `Result` and `Outcome`, and the exceptions the code
  raises (`InvalidRequestError`, `NoResultFound`, `ValueError`,
  `IntegrityError`, `IndexError`).
- `UserRecord` (user.py) holds the `users` row: an integer id and four
  dynamically typed columns (`Value`: NULL, integer, text or bytes). It also
  holds the five column names that stand for `hasattr(User, key)`, and the NOT NULL
  constraints on `email` and `hashed_password`.
- `Db` (db.py) models the table as the sequence of its rows in ascending id
  order, which is SQLite's rowid order:
  - `.first()` without `ORDER BY` yields the lowest-id match;
  - a new row gets the largest id plus one, or 1 in an empty table.

  `find_user_by` matches with SQL equality, so a NULL criterion never matches.
  `update_user` first looks the id up (`NoResultFound`), then checks every key
  (`ValueError`), then applies the store's constraints (`IntegrityError`).
- `Auth` (auth.py) models the service. bcrypt is a `Hasher` pair of
  functions, the salt is a parameter, and each token-issuing operation
  receives the token `uuid4` would have produced. `Invariant` (ascending
  unique ids, NOT NULL columns, and a bytes hash in every row) holds before
  and after every operation.
- `AuthFlows` states the workflows across several calls:
  - session round trip and revocation;
  - idempotent logout;
  - single-use reset tokens;
  - duplicate registration;
  - the registration-to-logout scenario.
- `ApiAuth` models the shared loop of `require_auth`:
  - Python's `str.strip`;
  - the pattern each entry builds;
  - what `re.match` does with such a pattern, as the language of `literal c*`
    matched at the start of the path;
  - `Verdict`, which says what the loop answers.
- `BasicAuth` and `SessionAuth` model the `Auth` base classes of the two API
  versions (`require_auth`, `authorization_header`, `current_user`).

Notes on the code's behaviour that the model keeps:

- `find_user_by` accepts every column name as a key, `hashed_password`
  included.
- An unknown key in `update_user` raises `ValueError`, while the same key
  in `find_user_by` raises `InvalidRequestError`.
- `destroy_session` and `update_user` on an id with no row are not no-ops.
  `find_user_by(id=...)` raises `NoResultFound` and lets it through.
- `get_user_from_session_id` short-circuits only on `None`. An empty token is
  looked up like any other.
- `add_user` returns `None` on any failure instead of raising.
- A token is revoked or consumed only when one account holds it. Two
  accounts holding the same reset token would each be reset in turn. The
  workflow lemmas take the freshness of `uuid4` tokens as a hypothesis.

## Model

| member | source | states |
|---|---|---|
| UserRecord.ColumnNamed | 0x03-user_authentication_service/user.py:20-25 | a key names a column exactly when it is one of the five column names, and names that column |
| UserRecord.AdmissibleColumns | 0x03-user_authentication_service/user.py:21-25 | a row satisfies the table's constraints iff email and hashed_password are not NULL; clearing session_id or reset_token keeps it admissible |
| Db.Init | 0x03-user_authentication_service/db.py:19-27 | the freshly created schema is a valid table with no row for any id |
| Db.Lookup | 0x03-user_authentication_service/db.py:98-100 | finds the row with a given id when there is one, and reports none only when no row has that id |
| Db.NextId | 0x03-user_authentication_service/db.py:53-55 | the id the store assigns is larger than every existing id, is 1 in an empty table, and otherwise follows the largest id |
| Db.AddUser | 0x03-user_authentication_service/db.py:42-59 | appends one row with the given email and hash, NULL tokens and a fresh larger id; returns None, table unchanged, exactly when a NOT NULL column would get NULL; the table stays valid |
| Db.FirstMatch | 0x03-user_authentication_service/db.py:81-83 | returns the first row position that meets every criterion, with no match before it, or none when no row matches |
| Db.FindUserBy | 0x03-user_authentication_service/db.py:61-86 | InvalidRequestError iff some key is not a column; NoResultFound iff keys are valid and no row meets every criterion; otherwise the lowest-id row meeting all criteria |
| Db.FirstMatchIsEarliest | 0x03-user_authentication_service/db.py:81-83 | in id order the first match is the matching row with the lowest id |
| Db.FindOne | 0x03-user_authentication_service/db.py:61-86 | a one-column lookup fails only with NoResultFound, exactly when no row holds the value, and otherwise yields the lowest-id holder |
| Db.FindById | 0x03-user_authentication_service/db.py:98 | looking up by id finds the row with that id, or raises NoResultFound when there is none |
| Db.Assign | 0x03-user_authentication_service/db.py:101-110 | the written row has each named column set to its new value and every other column unchanged, and satisfies the NOT NULL constraints |
| Db.Insert | 0x03-user_authentication_service/db.py:107-111 | the rewritten row takes its place in id order; the other rows are kept |
| Db.UpdateUser | 0x03-user_authentication_service/db.py:88-111 | NoResultFound when no row has the id; ValueError for an unknown key; IntegrityError iff the new row breaks a constraint or takes an existing id; otherwise exactly that row is replaced by its updated version; a failure leaves the table unchanged and the table stays valid |
| Db.ReplacesLookup | 0x03-user_authentication_service/db.py:107-111 | after a row is rewritten, its id finds the new row, a vacated old id finds nothing, and every other id finds what it found before |
| Auth.RegisterUser | 0x03-user_authentication_service/auth.py:47-66 | ValueError, table unchanged, when the email is taken; otherwise one new row with the email, the bcrypt hash of the password, NULL tokens and an id larger than every other (1 in an empty table); the invariant is kept |
| Auth.ValidLogin | 0x03-user_authentication_service/auth.py:68-88 | true iff an account has the email and the password checks against the hash of the lowest-id such account |
| Auth.CreateSession | 0x03-user_authentication_service/auth.py:90-108 | None, table unchanged, for an unknown email; otherwise returns the token and stores it as that account's session_id, nothing else changing |
| Auth.GetUserFromSessionId | 0x03-user_authentication_service/auth.py:110-126 | None for a missing token or one no account holds; otherwise the lowest-id account holding it |
| Auth.DestroySession | 0x03-user_authentication_service/auth.py:128-136 | nothing for None; NoResultFound, table unchanged, for an unknown id; otherwise clears exactly that account's session_id |
| Auth.GetResetPasswordToken | 0x03-user_authentication_service/auth.py:138-159 | ValueError, table unchanged, for an unknown email; otherwise returns the token and stores it as that account's reset_token, nothing else changing |
| Auth.UpdatePassword | 0x03-user_authentication_service/auth.py:161-183 | ValueError, table unchanged, for a token no account holds; otherwise that account gets the new hash and its reset_token cleared in one update |
| AuthFlows.SessionRoundTrip | 0x03-user_authentication_service/auth.py:90-126 | a fresh session token issued for an account resolves to that account, with the token stored |
| AuthFlows.DestroySessionIdempotent | 0x03-user_authentication_service/auth.py:128-136 | destroying a session twice leaves the same table and outcome as destroying it once |
| AuthFlows.DestroySessionRevokes | 0x03-user_authentication_service/auth.py:110-136 | when an account is the only holder of a session token, destroying that account's session leaves the token resolving to nobody |
| AuthFlows.IssueThenLogoutRevokes | 0x03-user_authentication_service/auth.py:90-136 | a session token create_session issues for an account, held by no account before, resolves to nobody after destroy_session on that account's id |
| AuthFlows.ResetTokenSingleUse | 0x03-user_authentication_service/auth.py:161-183 | when an account is the only holder of a reset token, as a fresh uuid4 token is (see ResetWorkflow), the token is accepted once and refused with ValueError on its second use |
| AuthFlows.ResetThenLogin | 0x03-user_authentication_service/auth.py:68-88 | after a password reset the account's email logs in with the new password |
| AuthFlows.ResetWorkflow | 0x03-user_authentication_service/auth.py:138-183 | a token issued for an email resets the password, the new password then logs in, and the token is consumed |
| AuthFlows.RegisterTwice | 0x03-user_authentication_service/auth.py:62-66 | registering an email a second time raises ValueError and changes nothing |
| AuthFlows.SessionLifecycle | 0x03-user_authentication_service/auth.py:47-136 | registering a@b.com in a fresh table stores one row with id 1; it logs in with pw1 and not with a password that fails checkpw; create_session stores the token, which resolves to that row; destroy_session(1) restores the registered table, where the token resolves to nobody |
| AuthFlows.FirstRegistration | 0x03-user_authentication_service/auth.py:47-66 | the first registration in a fresh table leaves exactly one row, with id 1, the email, the hash and no tokens |
| AuthFlows.LoginOneRow | 0x03-user_authentication_service/auth.py:68-88 | in a one-row table a login with the row's email succeeds iff the password checks against the row's hash |
| AuthFlows.DestroyOneRow | 0x03-user_authentication_service/auth.py:128-136 | destroy_session on the only row's id clears its session and changes nothing else |
| AuthFlows.TokenRefused | 0x03-user_authentication_service/auth.py:171-177 | a reset token no account holds is refused with ValueError and leaves the table unchanged |
| AuthFlows.ResetConsumes | 0x03-user_authentication_service/auth.py:178-183 | when the reset account is the token's only holder, an accepted reset leaves no account holding the token |
| ApiAuth.Strip | 0x01-Basic_authentication/api/v1/auth/auth.py:18 | the stripped entry is the slice between the leading and the trailing whitespace, starts and ends with non-whitespace, and is empty iff the entry is all whitespace |
| ApiAuth.StripIdempotent | 0x01-Basic_authentication/api/v1/auth/auth.py:18 | stripping an already stripped entry changes nothing |
| ApiAuth.PatternOf | 0x01-Basic_authentication/api/v1/auth/auth.py:19-25 | the literal part of the built pattern is the entry, or the entry without its last character |
| ApiAuth.MatchIsPrefix | 0x01-Basic_authentication/api/v1/auth/auth.py:26 | an anchored-at-start match of `literal c*` succeeds iff the path starts with the literal |
| ApiAuth.StarEntry | 0x01-Basic_authentication/api/v1/auth/auth.py:20-21 | reading the entry as literal text, an entry ending in `*` exempts exactly the paths starting with the entry without its `*` |
| ApiAuth.SlashEntry | 0x01-Basic_authentication/api/v1/auth/auth.py:22-23 | reading the entry as literal text, an entry ending in `/` exempts exactly the paths starting with the entry without its `/` |
| ApiAuth.PlainEntry | 0x01-Basic_authentication/api/v1/auth/auth.py:24-25 | reading the entry as literal text, any other entry exempts exactly the paths starting with it |
| ApiAuth.CatchAllEntries | 0x01-Basic_authentication/api/v1/auth/auth.py:20-26 | the entries `/` and `*` exempt every path |
| ApiAuth.Deciding | 0x01-Basic_authentication/api/v1/auth/auth.py:18-27 | the deciding entry is the first one that strips to nothing or whose pattern matches the path; no entry before it does either |
| ApiAuth.ScanVerdict | 0x01-Basic_authentication/api/v1/auth/auth.py:17-28 | the loop's prefix tests give the answer the regular-expression semantics gives |
| ApiAuth.StripBeforeMatching | 0x01-Basic_authentication/api/v1/auth/auth.py:18 | whitespace around the entries changes no answer |
| ApiAuth.ScanAppend | 0x01-Basic_authentication/api/v1/auth/auth.py:18-28 | entries appended to a list only matter when the list itself lets the path through to `True` |
| ApiAuth.Decide | 0x01-Basic_authentication/api/v1/auth/auth.py:17-28 | for a present path and list, each entry read as literal text: True when no entry decides, IndexError when the deciding entry is empty, False when its pattern matches |
| BasicAuth.RequireAuth | 0x01-Basic_authentication/api/v1/auth/auth.py:14-28 | True for a missing path or list; otherwise the verdict of the first deciding entry |
| BasicAuth.AuthorizationHeader | 0x01-Basic_authentication/api/v1/auth/auth.py:30-36 | None without a request; otherwise the Authorization field, present iff the request carries it |
| BasicAuth.CurrentUser | 0x01-Basic_authentication/api/v1/auth/auth.py:38-42 | the base class never knows a user |
| SessionAuth.RequireAuth | 0x02-Session_authentication/api/v1/auth/auth.py:15-30 | True for a missing path or list; otherwise the verdict of the first deciding entry |
| SessionAuth.AuthorizationHeader | 0x02-Session_authentication/api/v1/auth/auth.py:32-38 | None without a request; otherwise the Authorization field, present iff the request carries it |
| SessionAuth.CurrentUser | 0x02-Session_authentication/api/v1/auth/auth.py:40-44 | the base class never knows a user |

## Left out

- The SQLAlchemy engine, the cached session and the `a.db` file are not
  modelled. The table is a value, and each commit is the new table.
- Each operation's rollback is modelled by returning the old table. The
  state the shared session is left in after a failed commit is not.
- bcrypt is not modelled; only the `hashpw`/`checkpw` pair is. Nothing is
  assumed about a wrong password failing, because bcrypt reads only the first
  72 bytes of a password. So the model has no lemma that the old password
  stops working after a reset.
- The randomness of `gensalt()` and `uuid4()` is replaced by parameters.
  Token freshness is a hypothesis of the lemmas that need it.
- SQLite's type affinity and the 250-character `String` limit are not
  modelled. SQLite does not enforce the limit anyway. Values are compared as
  typed by Python.
- Integer ids are unbounded. The 64-bit rowid limit and SQLite's random rowid
  after it are not modelled.
- `add_user` failures other than a NOT NULL violation (disk, locking) are
  not modelled.
- `hasattr(User, key)` also accepts non-column attributes such as
  `metadata`, `__table__` or `__tablename__`. The model accepts exactly the
  five column names.
- A call to `find_user_by` with no keyword argument is read as an empty
  conjunction that every row meets. It is not read as the SQL error that an
  empty tuple would produce.
- Auth.RegisterUser, Auth.ValidLogin and Auth.UpdatePassword take a present
  password on every path, so a `None` password is not modelled. In the code
  such a password reaches `.encode`, and fails there with `AttributeError`,
  only on the path that hashes or checks it: a new email in `register_user`,
  a known email in `valid_login`, a held token in `update_password`. On the
  other paths the code answers as for any password: `register_user` raises
  ValueError for a taken email, `valid_login` returns False for an unknown
  email, `update_password` raises ValueError for an unheld token.
- Db.UpdateUser takes an integer id. The `None` id, which `Auth` never passes
  to it, is not modelled.
- BasicAuth.RequireAuth and SessionAuth.RequireAuth, when both the path and
  the list are present, require every entry, once stripped, to contain no
  regular-expression metacharacter other than a final `*`. The model reads
  the built pattern's literal part as literal text, which Python's `re` does
  only for such entries. The requirement also covers entries after the one
  that decides, which Python never compiles.
- ApiAuth.Decide, ApiAuth.StarEntry, ApiAuth.SlashEntry and ApiAuth.PlainEntry
  read every entry as literal text, whatever it contains. For an entry with a
  metacharacter they do not state Python's answer: for `/a.b` the code builds
  `/a.b/*`, and `re.match` finds it at the start of `/axb` because `.` matches
  any character, while the model requires the path to start with `/a.b`.
  Python's regular-expression language is not modelled.
- Flask's case-insensitive header lookup is not modelled. Headers are a map
  keyed by the exact name.
- `Auth.session_cookie` is not modelled, because it reads an environment
  variable and the request's cookies. `app.py`, `session_db_auth.py`,
  `user_session.py` and `encrypt_password.py` are not part of this model.
- Concurrency between requests is not modelled.

=== FILE: api_auth.dfy ===
/** The request filter of the API's `Auth` base class: how `require_auth`
    strips the excluded paths, builds a pattern from each and matches it
    against the request path. The basic-authentication and the
    session-authentication versions of the API carry the same code; both
    are written in terms of this module. */
module ApiAuth {
  import opened Outcomes

  /** A request as the filter sees it: its header fields by name. */
  datatype Request = Request(headers: map<string, string>)

  /** `request.headers.get(name, None)`. */
  function Header(request: Request, name: string): Option<string> {
    if name in request.headers then Some(request.headers[name]) else None
  }

  // ---------------------------------------------------------------------
  // Stripping entries

  /** Python's `str.isspace` for one character: the characters `str.strip()`
      removes from either end. */
  predicate IsSpace(c: char) {
    || c == ' '
    || ('\t' <= c <= '\r')
    || ('\U{1c}' <= c <= '\U{1f}')
    || c == '\U{85}' || c == '\U{a0}' || c == '\U{1680}'
    || ('\U{2000}' <= c <= '\U{200a}')
    || c == '\U{2028}' || c == '\U{2029}' || c == '\U{202f}' || c == '\U{205f}' || c == '\U{3000}'
  }

  /** The number of whitespace characters `s` starts with. */
  function Leading(s: string): (n: nat)
    ensures n <= |s|
    ensures forall i :: 0 <= i < n ==> IsSpace(s[i])
    ensures n < |s| ==> !IsSpace(s[n])
  {
    if s != [] && IsSpace(s[0]) then 1 + Leading(s[1..]) else 0
  }

  /** `s` without its trailing whitespace. */
  function TrimEnd(s: string): (r: string)
    ensures |r| <= |s| && r == s[..|r|]
    ensures forall i :: |r| <= i < |s| ==> IsSpace(s[i])
    ensures r != [] ==> !IsSpace(r[|r| - 1])
  {
    if s != [] && IsSpace(s[|s| - 1]) then TrimEnd(s[..|s| - 1]) else s
  }

  /** `s.strip()`: the part of `s` between its leading and its trailing
      whitespace. */
  function Strip(s: string): (r: string)
    ensures Leading(s) + |r| <= |s| && r == s[Leading(s)..Leading(s) + |r|]
    ensures forall i :: Leading(s) + |r| <= i < |s| ==> IsSpace(s[i])
    ensures r != [] ==> !IsSpace(r[0]) && !IsSpace(r[|r| - 1])
    ensures r == [] <==> forall i :: 0 <= i < |s| ==> IsSpace(s[i])
  {
    StripShape(s);
    TrimEnd(s[Leading(s)..])
  }

  lemma StripShape(s: string)
    ensures var a := Leading(s); var r := TrimEnd(s[a..]);
      && a + |r| <= |s| && r == s[a..a + |r|]
      && (forall i :: a + |r| <= i < |s| ==> IsSpace(s[i]))
      && (r != [] ==> !IsSpace(r[0]))
  {
    var a := Leading(s);
    StripSlice(s[a..], s, a);
  }

  /** Trimming the end of the suffix of `s` from a non-space position `a`
      leaves a slice of `s` that starts there and is followed by whitespace
      only. */
  lemma StripSlice(t: string, s: string, a: nat)
    requires a <= |s| && t == s[a..]
    requires a < |s| ==> !IsSpace(s[a])
    ensures var r := TrimEnd(t);
      && a + |r| <= |s| && r == s[a..a + |r|]
      && (forall i :: a + |r| <= i < |s| ==> IsSpace(s[i]))
      && (r != [] ==> !IsSpace(r[0]))
  {
    var r := TrimEnd(t);
    assert t[..|r|] == s[a..a + |r|];
    forall i | a + |r| <= i < |s| ensures IsSpace(s[i]) {
      assert s[i] == t[i - a];
    }
    if r != [] {
      assert r[0] == t[0] == s[a];
    }
  }

  /** Stripping twice strips nothing more. */
  lemma StripIdempotent(s: string)
    ensures Strip(Strip(s)) == Strip(s)
  {
    var r := Strip(s);
    if r != [] {
      assert Leading(r) == 0;
      assert r[0..] == r;
      assert TrimEnd(r) == r;
    }
  }

  // ---------------------------------------------------------------------
  // The patterns built from entries, and what `re.match` does with them

  /** What the final `*` of a built pattern repeats: `.` (any character but
      a newline) or a literal `/`. */
  datatype Repeat = AnyChar | Slash

  /** A pattern of the shape `literal` followed by `c*`. */
  datatype Pattern = Pattern(literal: string, repeat: Repeat)

  predicate Repeats(r: Repeat, c: char) {
    match r
    case AnyChar => c != '\n'
    case Slash => c == '/'
  }

  /** `s` is in the language of `p`: the literal, then repeated characters. */
  ghost predicate InLanguage(p: Pattern, s: string) {
    && |p.literal| <= |s|
    && s[..|p.literal|] == p.literal
    && forall i :: |p.literal| <= i < |s| ==> Repeats(p.repeat, s[i])
  }

  /** `re.match(p, path)` succeeds: the match is anchored at the start of the
      path only, so some prefix of the path must be in the language. */
  ghost predicate ReMatch(p: Pattern, path: string) {
    exists k :: 0 <= k <= |path| && InLanguage(p, path[..k])
  }

  predicate StartsWith(s: string, prefix: string) {
    |prefix| <= |s| && s[..|prefix|] == prefix
  }

  /** Characters with a meaning in Python's regular-expression syntax. */
  predicate IsMeta(c: char) {
    c in ".^$*+?{}[]\\|()"
  }

  /** An entry whose text the built pattern takes literally: no
      metacharacter, except that the last character may be `*`. */
  predicate Literal(entry: string) {
    forall i :: 0 <= i < |entry| ==> !IsMeta(entry[i]) || (i == |entry| - 1 && entry[i] == '*')
  }

  /** Every entry is literal once stripped. */
  predicate LiteralEntries(entries: seq<string>) {
    forall i :: 0 <= i < |entries| ==> Literal(Strip(entries[i]))
  }

  // The pattern `require_auth` builds from a stripped, non-empty entry:
  // `X*` gives `X.*`, `X/` gives `X/*`, and any other `X` gives `X/*`.
  function PatternOf(entry: string): (p: Pattern)
    requires entry != []
    ensures |p.literal| == |entry| || |p.literal| == |entry| - 1
    ensures p.literal == entry[..|p.literal|]
  {
    var last := entry[|entry| - 1];
    if last == '*' then Pattern(entry[..|entry| - 1], AnyChar)
    else if last == '/' then Pattern(entry[..|entry| - 1], Slash)
    else Pattern(entry, Slash)
  }

  /** The entry exempts the path: its pattern matches the path. */
  ghost predicate Exempts(entry: string, path: string) {
    entry != [] && ReMatch(PatternOf(entry), path)
  }

  /** Since the repeated part may match nothing, an anchored-at-start match of
      `literal c*` is exactly a prefix test for `literal`. */
  lemma MatchIsPrefix(p: Pattern, path: string)
    ensures ReMatch(p, path) <==> StartsWith(path, p.literal)
  {
    if StartsWith(path, p.literal) {
      assert path[..|p.literal|][..|p.literal|] == p.literal;
      assert InLanguage(p, path[..|p.literal|]);
    }
    if ReMatch(p, path) {
      var k :| 0 <= k <= |path| && InLanguage(p, path[..k]);
      assert path[..k][..|p.literal|] == path[..|p.literal|];
    }
  }

  /** An entry ending in `*` exempts exactly the paths that start with the
      entry without its `*`, its text read literally (see `Literal`). */
  lemma StarEntry(entry: string, path: string)
    requires entry != [] && entry[|entry| - 1] == '*'
    ensures Exempts(entry, path) <==> StartsWith(path, entry[..|entry| - 1])
  {
    MatchIsPrefix(PatternOf(entry), path);
  }

  // An entry ending in `/` exempts exactly the paths that start with the
  // entry without its trailing `/`, since `/*` may match no slash. The text
  // is read literally (see `Literal`).
  lemma SlashEntry(entry: string, path: string)
    requires entry != [] && entry[|entry| - 1] == '/'
    ensures Exempts(entry, path) <==> StartsWith(path, entry[..|entry| - 1])
  {
    MatchIsPrefix(PatternOf(entry), path);
  }

  /** Any other entry exempts exactly the paths that start with it, its
      text read literally (see `Literal`). */
  lemma PlainEntry(entry: string, path: string)
    requires entry != [] && entry[|entry| - 1] != '*' && entry[|entry| - 1] != '/'
    ensures Exempts(entry, path) <==> StartsWith(path, entry)
  {
    MatchIsPrefix(PatternOf(entry), path);
  }

  // The entries `/` and `*` build `/*` and `.*`, which match the empty
  // prefix of every path: either one exempts every path.
  lemma CatchAllEntries(path: string)
    ensures Exempts("/", path) && Exempts("*", path)
  {
    MatchIsPrefix(PatternOf("/"), path);
    MatchIsPrefix(PatternOf("*"), path);
  }

  // ---------------------------------------------------------------------
  // The decision

  /** The loop of `require_auth` over the entries: `False` at the first
      stripped entry whose pattern matches the path, `IndexError` when an
      empty stripped entry is reached first (its `[-1]` fails), `True` when
      the entries run out. */
  function Scan(path: string, entries: seq<string>): Result<bool> {
    if entries == [] then Ok(true)
    else
      var entry := Strip(entries[0]);
      if entry == [] then Err(IndexError)
      else if StartsWith(path, PatternOf(entry).literal) then Ok(false)
      else Scan(path, entries[1..])
  }

  /** The entry ends the loop for `path`: it strips to nothing, or its
      pattern matches the path. */
  ghost predicate Decisive(path: string, entry: string) {
    Strip(entry) == [] || Exempts(Strip(entry), path)
  }

  /** The position of the entry that decides the loop: the first decisive
      one, or the number of entries when there is none. */
  ghost function Deciding(path: string, entries: seq<string>): (k: nat)
    ensures k <= |entries|
    ensures forall j :: 0 <= j < k ==> !Decisive(path, entries[j])
    ensures k < |entries| ==> Decisive(path, entries[k])
  {
    if entries == [] then 0
    else if Decisive(path, entries[0]) then 0
    else
      var rest := entries[1..];
      assert forall j :: 0 <= j < |rest| ==> rest[j] == entries[j + 1];
      1 + Deciding(path, rest)
  }

  /** What `require_auth` answers for a path and a list of entries, stated
      through the regular-expression semantics: `True` when no entry decides,
      `IndexError` when the deciding entry is empty, `False` when the deciding
      entry's pattern matches the path. */
  ghost predicate Verdict(path: string, entries: seq<string>, r: Result<bool>) {
    var k := Deciding(path, entries);
    && (k == |entries| ==> r == Ok(true))
    && (k < |entries| && Strip(entries[k]) == [] ==> r == Err(IndexError))
    && (k < |entries| && Strip(entries[k]) != [] ==> r == Ok(false))
  }

  /** The prefix tests of `Scan` decide exactly what the patterns decide. */
  lemma {:induction false} ScanVerdict(path: string, entries: seq<string>)
    ensures Verdict(path, entries, Scan(path, entries))
    decreases |entries|
  {
    if entries != [] {
      var entry := Strip(entries[0]);
      if entry != [] {
        MatchIsPrefix(PatternOf(entry), path);
        if !StartsWith(path, PatternOf(entry).literal) {
          ScanVerdict(path, entries[1..]);
        }
      }
    }
  }

  /** Every entry stripped. */
  function StripAll(entries: seq<string>): seq<string> {
    if entries == [] then [] else [Strip(entries[0])] + StripAll(entries[1..])
  }

  /** Entries are stripped before they are used, so whitespace around an
      entry changes nothing. */
  lemma {:induction false} StripBeforeMatching(path: string, entries: seq<string>)
    ensures Scan(path, StripAll(entries)) == Scan(path, entries)
    decreases |entries|
  {
    if entries != [] {
      var e := Strip(entries[0]);
      var rest := StripAll(entries[1..]);
      assert StripAll(entries) == [e] + rest;
      assert ([e] + rest)[0] == e && ([e] + rest)[1..] == rest;
      StripIdempotent(entries[0]);
      if e != [] && !StartsWith(path, PatternOf(e).literal) {
        StripBeforeMatching(path, entries[1..]);
      }
    }
  }

  /** The verdict on a list made of two parts: the first part decides
      unless it lets the path through, and then the second part decides. */
  lemma {:induction false} ScanAppend(path: string, first: seq<string>, rest: seq<string>)
    ensures Scan(path, first + rest) == (if Scan(path, first) == Ok(true) then Scan(path, rest) else Scan(path, first))
    decreases |first|
  {
    if first != [] {
      assert (first + rest)[0] == first[0];
      assert (first + rest)[1..] == first[1..] + rest;
      ScanAppend(path, first[1..], rest);
    } else {
      assert first + rest == rest;
    }
  }

  /** The decision `require_auth` takes for a present path and list, each
      entry read as literal text. */
  function Decide(path: string, entries: seq<string>): (r: Result<bool>)
    ensures Verdict(path, entries, r)
  {
    ScanVerdict(path, entries);
    Scan(path, entries)
  }
}

=== FILE: auth.dfy ===
/** The `Auth` service: account registration, login check, sessions and the
    password-reset workflow, written on top of the `DB` operations.

    bcrypt and `uuid4` are not modelled: a `Hasher` stands for bcrypt, the
    salt `gensalt()` would draw is a parameter, and each operation that issues
    a token receives the token `_generate_uuid()` would have produced. */
module Auth {
  import opened Outcomes
  import opened UserRecord
  import opened Db

  /** bcrypt: `hashpw(password, salt)` and `checkpw(password, hashed)`. The
      password stands for its UTF-8 encoding. */
  datatype Hasher = Hasher(hashpw: (string, Bytes) -> Bytes, checkpw: (string, Bytes) -> bool)

  /** What the service relies on from bcrypt: a password verifies against
      any hash of itself. */
  ghost predicate Sound(h: Hasher) {
    forall password, salt :: h.checkpw(password, h.hashpw(password, salt))
  }

  /** What holds of the table the service owns: the table invariant, and
      every stored password hash is bcrypt output (`bytes`). */
  predicate Invariant(db: Table) {
    Valid(db) && forall u :: u in db.rows ==> u.hashedPassword.Blob?
  }

  /** A `str` argument that may be `None`, as it is bound in a query. */
  function Arg(s: Option<string>): Value {
    match s
    case None => Null
    case Some(t) => Text(t)
  }

  /** `bcrypt.checkpw(password, user.hashed_password)`. */
  predicate Verifies(h: Hasher, password: string, u: User) {
    u.hashedPassword.Blob? && h.checkpw(password, u.hashedPassword.b)
  }

  /** Writing `kw` over an existing row `u` without touching its key, so
      that it becomes `w`, succeeds, replaces only that row and keeps the
      invariant. */
  lemma WriteRow(db: Table, u: User, kw: map<string, Value>, w: User)
    requires Invariant(db) && u in db.rows && KnownKeys(kw) && "id" !in kw
    requires forall c: Column :: Get(w, c) == Updated(u, kw, c)
    requires Updated(u, kw, Email) == u.email && w.hashedPassword.Blob?
    ensures UpdateUser(db, u.id, kw).1 == Pass
    ensures Replaces(db, UpdateUser(db, u.id, kw).0, u.id, w)
    ensures Invariant(UpdateUser(db, u.id, kw).0)
  {
    LookupFinds(db, u);
    AdmissibleColumns(u);
    assert Updated(u, kw, Id) == Int(u.id);
    assert Updated(u, kw, Email) == w.email;
    assert Updated(u, kw, HashedPassword) == w.hashedPassword;
    assert Fits(u, kw) by {
      forall c: Column | !Nullable(c) ensures Updated(u, kw, c) != Null {
        match c
        case Id =>
        case Email =>
        case HashedPassword =>
      }
    }
    SameColumnsSameUser(Assign(u, kw), w);
    var after := UpdateUser(db, u.id, kw).0;
    forall v | v in after.rows ensures v.hashedPassword.Blob? {
      assert v in db.rows || v == w;
    }
  }

  /** The columns of `u` after a write of `value` to the one column `c`. */
  lemma WriteOne(u: User, c: Column, value: Value, w: User)
    requires forall d: Column :: Get(w, d) == (if d == c then value else Get(u, d))
    ensures forall d: Column :: Get(w, d) == Updated(u, map[ColumnName(c) := value], d)
  {
    forall d: Column ensures Get(w, d) == Updated(u, map[ColumnName(c) := value], d) {
      ColumnNameRoundTrip(c);
      ColumnNameRoundTrip(d);
    }
  }

  /** `register_user(email, password)`: an email some account already holds
      raises `ValueError` and writes nothing; otherwise the password is hashed
      and `add_user`'s result is returned, which is `None` when the insert is
      refused (an email of `None` violates NOT NULL). */
  function RegisterUser(db: Table, email: Option<string>, password: string, salt: Bytes, h: Hasher)
    : (res: (Table, Result<Option<User>>))
    requires Invariant(db)
    ensures Invariant(res.0)
    ensures !NoneWith(db, Email, Arg(email)) ==> res == (db, Err(ValueError))
    ensures email.None? ==> res == (db, Ok(None))
    ensures email.Some? && NoneWith(db, Email, Arg(email)) ==>
      && res.1.Ok? && res.1.value.Some?
      && var u := res.1.value.value;
      && res.0.rows == db.rows + [u]
      && u == User(u.id, Text(email.value), Blob(h.hashpw(password, salt)), Null, Null)
      && (forall v :: v in db.rows ==> v.id < u.id)
      && (db.rows == [] ==> u.id == 1)
  {
    FindOne(db, Email, Arg(email));
    match FindUserBy(db, map["email" := Arg(email)])
    case Ok(_) => (db, Err(ValueError))
    case Err(e) =>
      if e == NoResultFound then
        var added := AddUser(db, Arg(email), Blob(h.hashpw(password, salt)));
        (added.0, Ok(added.1))
      else (db, Err(e))
  }

  /** `valid_login(email, password)`: true exactly when there is an account
      for the email and the password verifies against its stored hash. The
      store is only read. */
  function ValidLogin(db: Table, email: Option<string>, password: string, h: Hasher): (ok: bool)
    requires Invariant(db)
    ensures ok <==> exists u :: FirstWith(db, Email, Arg(email), u) && Verifies(h, password, u)
  {
    FindOne(db, Email, Arg(email));
    match FindUserBy(db, map["email" := Arg(email)])
    case Ok(u) => Verifies(h, password, u)
    case Err(_) => false
  }

  /** `create_session(email)`: `None` when no account has the email;
      otherwise `token` becomes that account's `session_id`, nothing else in
      the table changes, and `token` is returned. */
  function CreateSession(db: Table, email: Option<string>, token: string): (res: (Table, Result<Option<string>>))
    requires Invariant(db)
    ensures Invariant(res.0)
    ensures NoneWith(db, Email, Arg(email)) ==> res == (db, Ok(None))
    ensures forall u :: FirstWith(db, Email, Arg(email), u) ==>
      res.1 == Ok(Some(token)) && Replaces(db, res.0, u.id, u.(sessionId := Text(token)))
  {
    FindOne(db, Email, Arg(email));
    match FindUserBy(db, map["email" := Arg(email)])
    case Err(e) => if e == NoResultFound then (db, Ok(None)) else (db, Err(e))
    case Ok(u) =>
      WriteOne(u, SessionId, Text(token), u.(sessionId := Text(token)));
      WriteRow(db, u, map["session_id" := Text(token)], u.(sessionId := Text(token)));
      var updated := UpdateUser(db, u.id, map["session_id" := Text(token)]);
      match updated.1
      case Pass => (updated.0, Ok(Some(token)))
      case Fail(e) => (updated.0, Err(e))
  }

  /** `get_user_from_session_id(session_id)`: `None` for `None` without
      reading the table; otherwise the lowest-id account holding the token,
      or `None` when no account holds it. */
  function GetUserFromSessionId(db: Table, sessionId: Option<string>): (r: Option<User>)
    requires Invariant(db)
    ensures sessionId.None? ==> r.None?
    ensures sessionId.Some? ==> (r.None? <==> NoneWith(db, SessionId, Text(sessionId.value)))
    ensures r.Some? ==> sessionId.Some? && FirstWith(db, SessionId, Text(sessionId.value), r.value)
  {
    if sessionId.None? then None
    else
      FindOne(db, SessionId, Text(sessionId.value));
      match FindUserBy(db, map["session_id" := Text(sessionId.value)])
      case Ok(u) => Some(u)
      case Err(_) => None
  }

  /** `destroy_session(user_id)`: nothing happens for `None`; otherwise the
      account's `session_id` is cleared and nothing else changes. An id with
      no account lets `NoResultFound` through from `update_user`. */
  function DestroySession(db: Table, userId: Option<int>): (res: (Table, Outcome))
    requires Invariant(db)
    ensures Invariant(res.0)
    ensures userId.None? ==> res == (db, Pass)
    ensures userId.Some? && Lookup(db, userId.value).None? ==> res == (db, Fail(NoResultFound))
    ensures userId.Some? && Lookup(db, userId.value).Some? ==>
      var u := Lookup(db, userId.value).value;
      res.1 == Pass && Replaces(db, res.0, u.id, u.(sessionId := Null))
  {
    if userId.None? then (db, Pass)
    else
      match Lookup(db, userId.value)
      case None => UpdateUser(db, userId.value, map["session_id" := Null])
      case Some(u) =>
        WriteOne(u, SessionId, Null, u.(sessionId := Null));
        WriteRow(db, u, map["session_id" := Null], u.(sessionId := Null));
        UpdateUser(db, userId.value, map["session_id" := Null])
  }

  /** `get_reset_password_token(email)`: `ValueError` when no account has
      the email; otherwise `token` becomes that account's `reset_token`,
      nothing else changes, and `token` is returned. */
  function GetResetPasswordToken(db: Table, email: Option<string>, token: string): (res: (Table, Result<string>))
    requires Invariant(db)
    ensures Invariant(res.0)
    ensures NoneWith(db, Email, Arg(email)) ==> res == (db, Err(ValueError))
    ensures forall u :: FirstWith(db, Email, Arg(email), u) ==>
      res.1 == Ok(token) && Replaces(db, res.0, u.id, u.(resetToken := Text(token)))
  {
    FindOne(db, Email, Arg(email));
    match FindUserBy(db, map["email" := Arg(email)])
    case Err(e) => if e == NoResultFound then (db, Err(ValueError)) else (db, Err(e))
    case Ok(u) =>
      WriteOne(u, ResetToken, Text(token), u.(resetToken := Text(token)));
      WriteRow(db, u, map["reset_token" := Text(token)], u.(resetToken := Text(token)));
      var updated := UpdateUser(db, u.id, map["reset_token" := Text(token)]);
      match updated.1
      case Pass => (updated.0, Ok(token))
      case Fail(e) => (updated.0, Err(e))
  }

  /** The row an accepted password reset leaves: the new hash, no reset token. */
  function AfterReset(u: User, hashed: Bytes): User {
    u.(hashedPassword := Blob(hashed), resetToken := Null)
  }

  /** `update_password(reset_token, password)`: `ValueError` when no account
      holds the token (a token of `None` is held by none); otherwise the new
      hash is stored and the token cleared in one `update_user` call, and
      nothing else changes. */
  function UpdatePassword(db: Table, resetToken: Option<string>, password: string, salt: Bytes, h: Hasher)
    : (res: (Table, Outcome))
    requires Invariant(db)
    ensures Invariant(res.0)
    ensures NoneWith(db, ResetToken, Arg(resetToken)) ==> res == (db, Fail(ValueError))
    ensures forall u :: FirstWith(db, ResetToken, Arg(resetToken), u) ==>
      res.1 == Pass && Replaces(db, res.0, u.id, AfterReset(u, h.hashpw(password, salt)))
  {
    FindOne(db, ResetToken, Arg(resetToken));
    match FindUserBy(db, map["reset_token" := Arg(resetToken)])
    case Err(e) => if e == NoResultFound then (db, Fail(ValueError)) else (db, Fail(e))
    case Ok(u) =>
      var kw := map["hashed_password" := Blob(h.hashpw(password, salt)), "reset_token" := Null];
      ResetWrite(u, h.hashpw(password, salt));
      WriteRow(db, u, kw, AfterReset(u, h.hashpw(password, salt)));
      UpdateUser(db, u.id, kw)
  }

  lemma ResetWrite(u: User, hashed: Bytes)
    ensures var kw := map["hashed_password" := Blob(hashed), "reset_token" := Null];
      KnownKeys(kw) && forall c: Column :: Get(AfterReset(u, hashed), c) == Updated(u, kw, c)
  {
    var kw := map["hashed_password" := Blob(hashed), "reset_token" := Null];
    forall c: Column ensures Get(AfterReset(u, hashed), c) == Updated(u, kw, c) {
      match c
      case Id =>
      case Email =>
      case HashedPassword =>
      case SessionId =>
      case ResetToken =>
    }
  }
}

=== FILE: auth_flows.dfy ===
/** Properties of sequences of `Auth` calls: what one operation leaves
    behind for the next. Token freshness, which `uuid4` provides, is stated
    as a hypothesis: the new token is held by no account. */
module AuthFlows {
  import opened Outcomes
  import opened UserRecord
  import opened Db
  import opened Auth

  /** A fresh session token stored by `create_session` resolves to the
      account it was issued for. */
  lemma SessionRoundTrip(db: Table, email: Option<string>, token: string, u: User)
    requires Invariant(db)
    requires FirstWith(db, Email, Arg(email), u)
    requires NoneWith(db, SessionId, Text(token))
    ensures CreateSession(db, email, token).1 == Ok(Some(token))
    ensures GetUserFromSessionId(CreateSession(db, email, token).0, Some(token)) == Some(u.(sessionId := Text(token)))
  {
    var after := CreateSession(db, email, token).0;
    var w := u.(sessionId := Text(token));
    ReplaceMakesOnly(db, after, u, w, SessionId, Text(token));
    var found := GetUserFromSessionId(after, Some(token));
    FirstWithUnique(after, SessionId, Text(token), found.value, w);
  }

  /** `destroy_session` is idempotent: a second call with the same id
      succeeds or fails as the first did and changes nothing. */
  lemma DestroySessionIdempotent(db: Table, userId: Option<int>)
    requires Invariant(db)
    ensures DestroySession(DestroySession(db, userId).0, userId) == DestroySession(db, userId)
  {
    var first := DestroySession(db, userId);
    if userId.Some? && Lookup(db, userId.value).Some? {
      var u := Lookup(db, userId.value).value;
      var w := u.(sessionId := Null);
      ReplacesLookup(db, first.0, u.id, w);
      assert Lookup(first.0, userId.value) == Some(w);
      var second := DestroySession(first.0, userId);
      assert w.(sessionId := Null) == w;
      assert Replaces(first.0, second.0, w.id, w);
      forall v ensures v in second.0.rows <==> v in first.0.rows {
        if v in first.0.rows && v.id == w.id {
          SameIdSameRow(first.0.rows, v, w);
        }
      }
      AscendingSameRows(second.0.rows, first.0.rows);
    }
  }

  /** After `destroy_session`, the token the account held no longer resolves
      when the account was the token's only holder, as a fresh `uuid4` token
      is (see `IssueThenLogoutRevokes`). */
  lemma DestroySessionRevokes(db: Table, token: string, u: User)
    requires Invariant(db)
    requires GetUserFromSessionId(db, Some(token)) == Some(u)
    requires forall x :: x in db.rows && Holds(x, SessionId, Text(token)) ==> x.id == u.id
    ensures DestroySession(db, Some(u.id)).1 == Pass
    ensures GetUserFromSessionId(DestroySession(db, Some(u.id)).0, Some(token)).None?
  {
    LookupFinds(db, u);
    var after := DestroySession(db, Some(u.id)).0;
    ReplaceClears(db, after, u, u.(sessionId := Null), SessionId, Text(token));
  }

  /** Logging out revokes a fresh session: the token `create_session` issues
      for an account, held by no account before, resolves to nobody once
      `destroy_session` is called on the account's id. */
  lemma IssueThenLogoutRevokes(db: Table, email: Option<string>, token: string, u: User)
    requires Invariant(db)
    requires FirstWith(db, Email, Arg(email), u)
    requires NoneWith(db, SessionId, Text(token))
    ensures var s := CreateSession(db, email, token).0;
      && DestroySession(s, Some(u.id)).1 == Pass
      && GetUserFromSessionId(DestroySession(s, Some(u.id)).0, Some(token)).None?
  {
    SessionRoundTrip(db, email, token, u);
    var s := CreateSession(db, email, token).0;
    var w := u.(sessionId := Text(token));
    ReplaceMakesOnly(db, s, u, w, SessionId, Text(token));
    DestroySessionRevokes(s, token, w);
  }

  /** A reset token is consumed by a successful `update_password` when its
      account is the token's only holder, as a fresh `uuid4` token is (see
      `ResetWorkflow`): the same token is refused afterwards. Two accounts
      holding one token would each be reset in turn. */
  lemma ResetTokenSingleUse(db: Table, token: string, u: User, password: string, salt: Bytes,
                            password2: string, salt2: Bytes, h: Hasher)
    requires Invariant(db)
    requires FirstWith(db, ResetToken, Text(token), u)
    requires forall x :: x in db.rows && Holds(x, ResetToken, Text(token)) ==> x.id == u.id
    ensures UpdatePassword(db, Some(token), password, salt, h).1 == Pass
    ensures var after := UpdatePassword(db, Some(token), password, salt, h).0;
      UpdatePassword(after, Some(token), password2, salt2, h) == (after, Fail(ValueError))
  {
    ResetConsumes(db, token, u, password, salt, h);
    TokenRefused(UpdatePassword(db, Some(token), password, salt, h).0, token, password2, salt2, h);
  }

  /** An accepted reset leaves no account holding the token when the reset
      account was its only holder. */
  lemma ResetConsumes(db: Table, token: string, u: User, password: string, salt: Bytes, h: Hasher)
    requires Invariant(db)
    requires FirstWith(db, ResetToken, Text(token), u)
    requires forall x :: x in db.rows && Holds(x, ResetToken, Text(token)) ==> x.id == u.id
    ensures var res := UpdatePassword(db, Some(token), password, salt, h);
      res.1 == Pass && Invariant(res.0) && NoneWith(res.0, ResetToken, Text(token))
  {
    var res := UpdatePassword(db, Some(token), password, salt, h);
    ResetAccepted(db, token, u, password, salt, h);
    ResetClears(db, res.0, token, u, h.hashpw(password, salt));
  }

  /** Once the only holder of a reset token is reset, nobody holds it. */
  lemma ResetClears(db: Table, after: Table, token: string, u: User, hashed: Bytes)
    requires forall x :: x in db.rows && Holds(x, ResetToken, Text(token)) ==> x.id == u.id
    requires Replaces(db, after, u.id, AfterReset(u, hashed))
    ensures NoneWith(after, ResetToken, Text(token))
  {
    var w := AfterReset(u, hashed);
    assert Get(w, ResetToken) == Null;
    ReplaceClears(db, after, u, w, ResetToken, Text(token));
  }

  /** A token held first by `u` resets `u`'s row. */
  lemma ResetAccepted(db: Table, token: string, u: User, password: string, salt: Bytes, h: Hasher)
    requires Invariant(db)
    requires FirstWith(db, ResetToken, Text(token), u)
    ensures var res := UpdatePassword(db, Some(token), password, salt, h);
      res.1 == Pass && Invariant(res.0) && Replaces(db, res.0, u.id, AfterReset(u, h.hashpw(password, salt)))
  {
    assert Arg(Some(token)) == Text(token);
  }

  /** A token no account holds is refused and changes nothing. */
  lemma TokenRefused(db: Table, token: string, password: string, salt: Bytes, h: Hasher)
    requires Invariant(db) && NoneWith(db, ResetToken, Text(token))
    ensures UpdatePassword(db, Some(token), password, salt, h) == (db, Fail(ValueError))
  {
    assert Arg(Some(token)) == Text(token);
  }

  /** After a password reset the account's email logs in with the new
      password. */
  lemma ResetThenLogin(db: Table, email: Option<string>, token: string, u: User,
                       password: string, salt: Bytes, h: Hasher)
    requires Invariant(db) && Sound(h)
    requires FirstWith(db, Email, Arg(email), u)
    requires FirstWith(db, ResetToken, Text(token), u)
    ensures ValidLogin(UpdatePassword(db, Some(token), password, salt, h).0, email, password, h)
  {
    var after := UpdatePassword(db, Some(token), password, salt, h).0;
    var w := AfterReset(u, h.hashpw(password, salt));
    ReplaceKeepsFirst(db, after, u, w, Email, Arg(email));
    assert Verifies(h, password, w);
  }

  /** The reset workflow end to end: a fresh token is issued for an account,
      redeemed once to set a new password that then logs in, and refused on
      a second use. */
  lemma ResetWorkflow(db: Table, email: Option<string>, u: User, token: string,
                      password: string, salt: Bytes, password2: string, salt2: Bytes, h: Hasher)
    requires Invariant(db) && Sound(h)
    requires FirstWith(db, Email, Arg(email), u)
    requires NoneWith(db, ResetToken, Text(token))
    ensures GetResetPasswordToken(db, email, token).1 == Ok(token)
    ensures var issued := GetResetPasswordToken(db, email, token).0;
      && UpdatePassword(issued, Some(token), password, salt, h).1 == Pass
      && var reset := UpdatePassword(issued, Some(token), password, salt, h).0;
      && ValidLogin(reset, email, password, h)
      && UpdatePassword(reset, Some(token), password2, salt2, h) == (reset, Fail(ValueError))
  {
    var issued := GetResetPasswordToken(db, email, token).0;
    var w := u.(resetToken := Text(token));
    ReplaceKeepsFirst(db, issued, u, w, Email, Arg(email));
    ReplaceMakesOnly(db, issued, u, w, ResetToken, Text(token));
    ResetTokenSingleUse(issued, token, w, password, salt, password2, salt2, h);
    ResetThenLogin(issued, email, token, w, password, salt, h);
  }

  /** Registering an email twice: the second call raises `ValueError` and
      the first account, with its hash, stays as it was. */
  lemma RegisterTwice(db: Table, email: string, password: string, salt: Bytes,
                      password2: string, salt2: Bytes, h: Hasher)
    requires Invariant(db)
    requires NoneWith(db, Email, Text(email))
    ensures var first := RegisterUser(db, Some(email), password, salt, h).0;
      RegisterUser(first, Some(email), password2, salt2, h) == (first, Err(ValueError))
  {
    var first := RegisterUser(db, Some(email), password, salt, h);
    var u := first.1.value.value;
    assert u in first.0.rows && Holds(u, Email, Text(email));
  }

  /** A session from registration to logout: the account created in an empty
      table gets id 1, logs in with its password and not with a password that
      does not verify, its session token resolves to it, and
      `destroy_session(1)` brings the table back to what registration left,
      where the token resolves to nobody. */
  lemma SessionLifecycle(h: Hasher, salt: Bytes, token: string)
    requires Sound(h)
    requires !h.checkpw("bad", h.hashpw("pw1", salt))
    ensures var u := User(1, Text("a@b.com"), Blob(h.hashpw("pw1", salt)), Null, Null);
      RegisterUser(Init(), Some("a@b.com"), "pw1", salt, h) == (Table([u]), Ok(Some(u)))
    ensures var u := User(1, Text("a@b.com"), Blob(h.hashpw("pw1", salt)), Null, Null);
      ValidLogin(Table([u]), Some("a@b.com"), "pw1", h) && !ValidLogin(Table([u]), Some("a@b.com"), "bad", h)
    ensures var u := User(1, Text("a@b.com"), Blob(h.hashpw("pw1", salt)), Null, Null);
      CreateSession(Table([u]), Some("a@b.com"), token) == (Table([u.(sessionId := Text(token))]), Ok(Some(token)))
    ensures var u := User(1, Text("a@b.com"), Blob(h.hashpw("pw1", salt)), Null, Null);
      GetUserFromSessionId(Table([u.(sessionId := Text(token))]), Some(token)) == Some(u.(sessionId := Text(token)))
    ensures var u := User(1, Text("a@b.com"), Blob(h.hashpw("pw1", salt)), Null, Null);
      DestroySession(Table([u.(sessionId := Text(token))]), Some(1)) == (Table([u]), Pass)
    ensures var u := User(1, Text("a@b.com"), Blob(h.hashpw("pw1", salt)), Null, Null);
      GetUserFromSessionId(Table([u]), Some(token)) == None
  {
    var u := User(1, Text("a@b.com"), Blob(h.hashpw("pw1", salt)), Null, Null);
    var w := u.(sessionId := Text(token));
    FirstRegistration("a@b.com", "pw1", salt, h);
    assert Table([u]).rows[0] == u;
    assert Verifies(h, "pw1", u) && !Verifies(h, "bad", u);
    LoginOneRow(Table([u]), "a@b.com", "pw1", h);
    LoginOneRow(Table([u]), "a@b.com", "bad", h);
    SessionOneRow(u, "a@b.com", token);
    ResolveOneRow(w, token);
    OneRowInvariant(u, w);
    DestroyOneRow(w);
    assert w.(sessionId := Null) == u;
    ResolveOneRow(u, token);
  }

  /** The first registration in a fresh table stores the only row, with id 1. */
  lemma FirstRegistration(email: string, password: string, salt: Bytes, h: Hasher)
    ensures var u := User(1, Text(email), Blob(h.hashpw(password, salt)), Null, Null);
      && RegisterUser(Init(), Some(email), password, salt, h) == (Table([u]), Ok(Some(u)))
      && Invariant(Table([u]))
  {
    var res := RegisterUser(Init(), Some(email), password, salt, h);
    assert NoneWith(Init(), Email, Arg(Some(email)));
    assert res.0.rows == [res.1.value.value];
  }

  /** In a one-row table a login succeeds exactly for the row's email and a
      password that checks against the row's hash. */
  lemma LoginOneRow(db: Table, email: string, password: string, h: Hasher)
    requires Invariant(db) && |db.rows| == 1 && db.rows[0].email == Text(email)
    ensures ValidLogin(db, Some(email), password, h) <==> Verifies(h, password, db.rows[0])
  {
    var u := db.rows[0];
    assert FirstWith(db, Email, Arg(Some(email)), u);
    forall v | FirstWith(db, Email, Arg(Some(email)), v) ensures v == u {
      assert v in db.rows;
    }
  }

  /** A row rewritten in a one-row table leaves the new row alone. */
  lemma OneRowReplaced(before: Table, after: Table, u: User, w: User)
    requires before.rows == [u] && Ascending(after.rows)
    requires Replaces(before, after, u.id, w)
    ensures after.rows == [w]
  {
    forall v ensures v in after.rows <==> v in [w] {
      assert v in before.rows <==> v == u;
    }
    AscendingSameRows(after.rows, [w]);
  }

  /** Two rows that differ only in their session id keep the table
      invariant alike. */
  lemma OneRowInvariant(u: User, w: User)
    requires Invariant(Table([u]))
    requires w == u.(sessionId := w.sessionId)
    ensures Invariant(Table([w]))
  {
    assert Table([w]).rows == [w];
    assert w.hashedPassword == u.hashedPassword && w.email == u.email;
    assert Admissible(u) && u in Table([u]).rows;
    AdmissibleColumns(u);
    AdmissibleColumns(w);
  }

  /** `create_session` on a one-row table stores the token in that row. */
  lemma SessionOneRow(u: User, email: string, token: string)
    requires Invariant(Table([u])) && u.email == Text(email)
    ensures CreateSession(Table([u]), Some(email), token) == (Table([u.(sessionId := Text(token))]), Ok(Some(token)))
  {
    var db := Table([u]);
    var res := CreateSession(db, Some(email), token);
    assert FirstWith(db, Email, Arg(Some(email)), u);
    OneRowReplaced(db, res.0, u, u.(sessionId := Text(token)));
  }

  /** On a one-row table a token resolves to the row exactly when the row
      holds it. */
  lemma ResolveOneRow(u: User, token: string)
    requires Invariant(Table([u]))
    ensures GetUserFromSessionId(Table([u]), Some(token)) == (if u.sessionId == Text(token) then Some(u) else None)
  {
    var db := Table([u]);
    if u.sessionId == Text(token) {
      assert FirstWith(db, SessionId, Text(token), u);
    } else {
      assert NoneWith(db, SessionId, Text(token));
    }
  }

  /** `destroy_session` on the id of a one-row table clears that row's
      session. */
  lemma DestroyOneRow(u: User)
    requires Invariant(Table([u]))
    ensures DestroySession(Table([u]), Some(u.id)) == (Table([u.(sessionId := Null)]), Pass)
  {
    var db := Table([u]);
    LookupFinds(db, u);
    var res := DestroySession(db, Some(u.id));
    OneRowReplaced(db, res.0, u, u.(sessionId := Null));
  }
}

=== FILE: basic_auth.dfy ===
/** The `Auth` base class of the basic-authentication version of the API. */
module BasicAuth {
  import opened Outcomes
  import opened ApiAuth

  /** `Auth.require_auth`: whether a request for `path` must be
      authenticated. A missing path or a missing list of excluded paths
      always requires it; otherwise the first entry that strips to nothing
      raises `IndexError`, the first entry whose pattern matches the path
      lets it through, and a path no entry matches requires it. */
  function RequireAuth(path: Option<string>, excludedPaths: Option<seq<string>>): (r: Result<bool>)
    requires path.Some? && excludedPaths.Some? ==> LiteralEntries(excludedPaths.value)
    ensures path.None? || excludedPaths.None? ==> r == Ok(true)
    ensures path.Some? && excludedPaths.Some? ==> Verdict(path.value, excludedPaths.value, r)
  {
    if path.None? || excludedPaths.None? then Ok(true)
    else Decide(path.value, excludedPaths.value)
  }

  /** `Auth.authorization_header`: the `Authorization` field of the request,
      if there is a request and it has one. */
  function AuthorizationHeader(request: Option<Request>): (r: Option<string>)
    ensures request.None? ==> r.None?
    ensures request.Some? ==> (r.Some? <==> "Authorization" in request.value.headers)
    ensures r.Some? ==> request.Some? && r.value == request.value.headers["Authorization"]
  {
    if request.Some? then Header(request.value, "Authorization") else None
  }

  /** `Auth.current_user`: the base class knows no user. */
  function CurrentUser<U>(request: Option<Request>): (u: Option<U>)
    ensures u.None?
  {
    None
  }
}

=== FILE: db.dfy ===
/** The `DB` class: a single `users` table reached through `add_user`,
    `find_user_by` and `update_user`. Rows are kept in ascending id order,
    the order in which SQLite visits them when a query has no ORDER BY. */
module Db {
  import opened Outcomes
  import opened UserRecord

  datatype Table = Table(rows: seq<User>)

  /** Ids strictly increase along the rows: the primary key is unique. */
  predicate Ascending(rows: seq<User>) {
    forall i, j :: 0 <= i < j < |rows| ==> rows[i].id < rows[j].id
  }

  /** What the table always satisfies: a unique integer primary key and
      filled NOT NULL columns in every row. */
  predicate Valid(db: Table) {
    Ascending(db.rows) && forall u :: u in db.rows ==> Admissible(u)
  }

  /** `DB()`: the schema is dropped and created again, so the table is empty. */
  function Init(): (db: Table)
    ensures Valid(db)
    ensures forall id :: Lookup(db, id).None?
  {
    Table([])
  }

  /** The row whose primary key is `id`, if there is one. */
  function Lookup(db: Table, id: int): (r: Option<User>)
    ensures r.Some? ==> r.value in db.rows && r.value.id == id
    ensures r.None? ==> forall u :: u in db.rows ==> u.id != id
    decreases |db.rows|
  {
    if db.rows == [] then None
    else if db.rows[0].id == id then Some(db.rows[0])
    else Lookup(Table(db.rows[1..]), id)
  }

  lemma AscendingTail(rows: seq<User>)
    requires Ascending(rows) && rows != []
    ensures Ascending(rows[1..])
    ensures forall v :: v in rows[1..] ==> rows[0].id < v.id
  {
    forall v | v in rows[1..] ensures rows[0].id < v.id {
      var j :| 0 <= j < |rows| - 1 && rows[1..][j] == v;
      assert rows[j + 1] == v;
    }
  }

  lemma AscendingCons(x: User, rows: seq<User>)
    requires Ascending(rows)
    requires forall v :: v in rows ==> x.id < v.id
    ensures Ascending([x] + rows)
  {
    var s := [x] + rows;
    forall i, j | 0 <= i < j < |s| ensures s[i].id < s[j].id {
      if i == 0 {
        assert s[j] == rows[j - 1];
      } else {
        assert s[i] == rows[i - 1] && s[j] == rows[j - 1];
      }
    }
  }

  /** In an ascending table a primary key value identifies one row. */
  lemma SameIdSameRow(rows: seq<User>, a: User, b: User)
    requires Ascending(rows) && a in rows && b in rows && a.id == b.id
    ensures a == b
  {
    var i :| 0 <= i < |rows| && rows[i] == a;
    var j :| 0 <= j < |rows| && rows[j] == b;
    if i < j {
      assert rows[i].id < rows[j].id;
    } else if j < i {
      assert rows[j].id < rows[i].id;
    }
  }

  /** Every row of an ascending table is found under its own id. */
  lemma LookupFinds(db: Table, u: User)
    requires Ascending(db.rows) && u in db.rows
    ensures Lookup(db, u.id) == Some(u)
  {
    SameIdSameRow(db.rows, Lookup(db, u.id).value, u);
  }

  /** Two ascending tables with the same rows are the same table. */
  lemma {:induction false} AscendingSameRows(a: seq<User>, b: seq<User>)
    requires Ascending(a) && Ascending(b)
    requires forall v :: v in a <==> v in b
    ensures a == b
    decreases |a|
  {
    if a == [] {
      assert forall i :: 0 <= i < |b| ==> b[i] in a;
      assert |b| == 0;
    } else {
      assert a[0] in b;
      assert b != [];
      assert b[0] in a;
      AscendingTail(a);
      AscendingTail(b);
      assert a[0].id == b[0].id by {
        assert a == [a[0]] + a[1..];
        assert b == [b[0]] + b[1..];
        assert a[0] in b[1..] || a[0] == b[0];
        assert b[0] in a[1..] || b[0] == a[0];
      }
      SameIdSameRow(a, a[0], b[0]);
      forall v ensures v in a[1..] <==> v in b[1..] {
        assert a == [a[0]] + a[1..];
        assert b == [b[0]] + b[1..];
        if v in a[1..] {
          assert a[0].id < v.id;
          assert v in b && v != b[0];
        }
        if v in b[1..] {
          assert b[0].id < v.id;
          assert v in a && v != a[0];
        }
      }
      AscendingSameRows(a[1..], b[1..]);
      assert a == [a[0]] + a[1..];
      assert b == [b[0]] + b[1..];
    }
  }

  /** The id SQLite gives an inserted row: one more than the largest id in
      the table, or 1 when the table is empty. */
  function NextId(db: Table): (n: int)
    requires Ascending(db.rows)
    ensures forall u :: u in db.rows ==> u.id < n
    ensures db.rows == [] ==> n == 1
    ensures db.rows != [] ==> Lookup(db, n - 1).Some?
  {
    if db.rows == [] then 1
    else
      var last := db.rows[|db.rows| - 1];
      LastIsLargest(db.rows);
      LookupFinds(db, last);
      last.id + 1
  }

  lemma LastIsLargest(rows: seq<User>)
    requires Ascending(rows) && rows != []
    ensures forall u :: u in rows ==> u.id <= rows[|rows| - 1].id
  {
    forall u | u in rows ensures u.id <= rows[|rows| - 1].id {
      var i :| 0 <= i < |rows| && rows[i] == u;
      if i < |rows| - 1 {
        assert rows[i].id < rows[|rows| - 1].id;
      }
    }
  }

  lemma AscendingSnoc(rows: seq<User>, u: User)
    requires Ascending(rows)
    requires forall v :: v in rows ==> v.id < u.id
    ensures Ascending(rows + [u])
  {
    var s := rows + [u];
    forall i, j | 0 <= i < j < |s| ensures s[i].id < s[j].id {
      assert s[i] == rows[i];
      if j < |rows| {
        assert s[j] == rows[j];
      } else {
        assert rows[i] in rows;
      }
    }
  }

  /** `add_user(email, hashed_password)`: the row is inserted and returned;
      if the insert fails, the transaction is rolled back and `None` is
      returned. The insert fails exactly when a NOT NULL column would be
      empty. */
  function AddUser(db: Table, email: Value, hashedPassword: Value): (res: (Table, Option<User>))
    requires Valid(db)
    ensures Valid(res.0)
    ensures res.1.None? <==> email == Null || hashedPassword == Null
    ensures res.1.None? ==> res.0 == db
    ensures res.1.Some? ==>
      var u := res.1.value;
      && res.0.rows == db.rows + [u]
      && u.email == email && u.hashedPassword == hashedPassword
      && u.sessionId == Null && u.resetToken == Null
      && (forall v :: v in db.rows ==> v.id < u.id)
      && (db.rows == [] ==> u.id == 1)
  {
    if email == Null || hashedPassword == Null then (db, None)
    else
      var u := User(NextId(db), email, hashedPassword, Null, Null);
      AdmissibleColumns(u);
      AscendingSnoc(db.rows, u);
      (Table(db.rows + [u]), Some(u))
  }

  /** Every keyword names a column of `User`. */
  predicate KnownKeys(kw: map<string, Value>) {
    forall k :: k in kw ==> ColumnNamed(k).Some?
  }

  /** SQL equality: a NULL on either side never compares equal, so a
      criterion `IN ((NULL))` holds of no row. */
  predicate SqlEquals(a: Value, b: Value) {
    a != Null && b != Null && a == b
  }

  /** The row satisfies every criterion of a `find_user_by` call. */
  predicate Matches(u: User, kw: map<string, Value>) {
    forall k :: k in kw ==> ColumnNamed(k).Some? && SqlEquals(Get(u, ColumnNamed(k).value), kw[k])
  }

  /** The position of the first row that satisfies the criteria. */
  function FirstMatch(rows: seq<User>, kw: map<string, Value>): (i: Option<nat>)
    ensures i.Some? ==> i.value < |rows| && Matches(rows[i.value], kw)
    ensures i.Some? ==> forall j :: 0 <= j < i.value ==> !Matches(rows[j], kw)
    ensures i.None? ==> forall j :: 0 <= j < |rows| ==> !Matches(rows[j], kw)
  {
    if rows == [] then None
    else if Matches(rows[0], kw) then Some(0)
    else
      match FirstMatch(rows[1..], kw)
      case None => None
      case Some(j) => Some(j + 1)
  }

  /** `u` is the lowest-id row satisfying every criterion. */
  ghost predicate Earliest(db: Table, kw: map<string, Value>, u: User) {
    && u in db.rows
    && Matches(u, kw)
    && forall v :: v in db.rows && Matches(v, kw) ==> u.id <= v.id
  }

  /** `find_user_by(**kw)`: an unknown attribute raises before the table is
      read; otherwise the first row in id order that satisfies all criteria
      is returned, and `NoResultFound` is raised when none does. */
  function FindUserBy(db: Table, kw: map<string, Value>): (r: Result<User>)
    requires Valid(db)
    ensures r == Err(InvalidRequestError) <==> !KnownKeys(kw)
    ensures r == Err(NoResultFound) <==> KnownKeys(kw) && forall u :: u in db.rows ==> !Matches(u, kw)
    ensures r.Ok? || r == Err(InvalidRequestError) || r == Err(NoResultFound)
    ensures r.Ok? ==> Earliest(db, kw, r.value)
  {
    if !KnownKeys(kw) then Err(InvalidRequestError)
    else
      FirstMatchIsEarliest(db, kw);
      match FirstMatch(db.rows, kw)
      case None => Err(NoResultFound)
      case Some(i) => Ok(db.rows[i])
  }

  /** In an ascending table the first matching row has the lowest id among
      the matching rows. */
  lemma FirstMatchIsEarliest(db: Table, kw: map<string, Value>)
    requires Ascending(db.rows)
    ensures FirstMatch(db.rows, kw).None? ==> forall u :: u in db.rows ==> !Matches(u, kw)
    ensures FirstMatch(db.rows, kw).Some? ==> Earliest(db, kw, db.rows[FirstMatch(db.rows, kw).value])
  {
    match FirstMatch(db.rows, kw)
    case None =>
      forall u | u in db.rows ensures !Matches(u, kw) {
        var j :| 0 <= j < |db.rows| && db.rows[j] == u;
      }
    case Some(i) =>
      var u := db.rows[i];
      forall v | v in db.rows && Matches(v, kw) ensures u.id <= v.id {
        var j :| 0 <= j < |db.rows| && db.rows[j] == v;
        if i < j {
          assert db.rows[i].id < db.rows[j].id;
        }
      }
  }

  /** A single criterion `column == v`, as the service issues it. */
  ghost predicate Holds(u: User, c: Column, v: Value) {
    SqlEquals(Get(u, c), v)
  }

  /** `u` is the lowest-id row whose column `c` equals `v`. */
  ghost predicate FirstWith(db: Table, c: Column, v: Value, u: User) {
    && u in db.rows
    && Holds(u, c, v)
    && forall w :: w in db.rows && Holds(w, c, v) ==> u.id <= w.id
  }

  /** No row has `v` in column `c`. */
  ghost predicate NoneWith(db: Table, c: Column, v: Value) {
    forall u :: u in db.rows ==> !Holds(u, c, v)
  }

  /** A query on one column finds the lowest-id row holding the value, and
      only that row; it raises `NoResultFound` exactly when no row holds it. */
  lemma FindOne(db: Table, c: Column, v: Value)
    requires Valid(db)
    ensures var r := FindUserBy(db, map[ColumnName(c) := v]);
      && (r.Ok? || r == Err(NoResultFound))
      && (r == Err(NoResultFound) <==> NoneWith(db, c, v))
      && (r.Ok? ==> FirstWith(db, c, v, r.value))
      && (forall u :: FirstWith(db, c, v, u) ==> r == Ok(u))
  {
    var kw := map[ColumnName(c) := v];
    ColumnNameRoundTrip(c);
    assert KnownKeys(kw);
    assert forall u :: Matches(u, kw) <==> Holds(u, c, v);
    var r := FindUserBy(db, kw);
    forall u | FirstWith(db, c, v, u) ensures r == Ok(u) {
      assert r.Ok?;
      SameIdSameRow(db.rows, r.value, u);
    }
  }

  /** Looking a row up by primary key through `find_user_by(id=...)`. */
  lemma FindById(db: Table, id: int)
    requires Valid(db)
    ensures var r := FindUserBy(db, map["id" := Int(id)]);
      && (Lookup(db, id).None? ==> r == Err(NoResultFound))
      && (Lookup(db, id).Some? ==> r == Ok(Lookup(db, id).value))
  {
    FindOne(db, Id, Int(id));
    assert forall u :: Holds(u, Id, Int(id)) <==> u.id == id;
    match Lookup(db, id)
    case None =>
    case Some(u) =>
      assert FirstWith(db, Id, Int(id), u) by {
        forall w | w in db.rows && Holds(w, Id, Int(id)) ensures u.id <= w.id {
        }
      }
  }

  /** The value a column takes when `kw` is written over row `u`. */
  function Updated(u: User, kw: map<string, Value>, c: Column): Value {
    if ColumnName(c) in kw then kw[ColumnName(c)] else Get(u, c)
  }

  /** The written row satisfies the column constraints: the key is an integer
      and no NOT NULL column is emptied. */
  predicate Fits(u: User, kw: map<string, Value>) {
    Updated(u, kw, Id).Int? && forall c: Column :: !Nullable(c) ==> Updated(u, kw, c) != Null
  }

  /** The row `u` becomes when every keyword of `kw` is written over it. */
  function Assign(u: User, kw: map<string, Value>): (r: User)
    requires Fits(u, kw)
    ensures forall c: Column :: Get(r, c) == Updated(u, kw, c)
    ensures Admissible(r)
  {
    User(Updated(u, kw, Id).n, Updated(u, kw, Email), Updated(u, kw, HashedPassword),
         Updated(u, kw, SessionId), Updated(u, kw, ResetToken))
  }

  /** The rows of an ascending table without the one whose key is `id`. */
  function Remove(rows: seq<User>, id: int): (r: seq<User>)
    requires Ascending(rows)
    ensures Ascending(r)
    ensures forall v :: v in r <==> v in rows && v.id != id
  {
    if rows == [] then []
    else
      AscendingTail(rows);
      assert rows == [rows[0]] + rows[1..];
      var rest := Remove(rows[1..], id);
      if rows[0].id == id then rest
      else
        AscendingCons(rows[0], rest);
        [rows[0]] + rest
  }

  /** An ascending table with `u` placed by its key. */
  function Insert(rows: seq<User>, u: User): (r: seq<User>)
    requires Ascending(rows)
    requires forall v :: v in rows ==> v.id != u.id
    ensures Ascending(r)
    ensures forall v :: v in r <==> v in rows || v == u
  {
    if rows == [] then [u]
    else
      AscendingTail(rows);
      assert rows == [rows[0]] + rows[1..];
      if u.id < rows[0].id then
        AscendingCons(u, rows);
        [u] + rows
      else
        var rest := Insert(rows[1..], u);
        AscendingCons(rows[0], rest);
        [rows[0]] + rest
  }

  /** `after` is `before` with the row keyed `id` replaced by `u`; every other
      row is kept as it was and no row is added. */
  ghost predicate Replaces(before: Table, after: Table, id: int, u: User) {
    forall v :: v in after.rows <==> (v in before.rows && v.id != id) || v == u
  }

  /** What a replacement means key by key. */
  lemma ReplacesLookup(before: Table, after: Table, id: int, u: User)
    requires Ascending(before.rows) && Ascending(after.rows)
    requires Replaces(before, after, id, u)
    ensures Lookup(after, u.id) == Some(u)
    ensures u.id != id ==> Lookup(after, id).None?
    ensures forall x :: x != id && x != u.id ==> Lookup(after, x) == Lookup(before, x)
  {
    LookupFinds(after, u);
    forall x | x != id && x != u.id ensures Lookup(after, x) == Lookup(before, x) {
      match Lookup(before, x)
      case Some(v) =>
        assert v in after.rows;
        LookupFinds(after, v);
      case None =>
    }
  }

  /** `update_user(user_id, **kw)`: the row is first looked up by key, which
      raises `NoResultFound` when it is missing (so the `None` guard after the
      lookup is never taken); an attribute `User` lacks raises `ValueError`
      before anything is written; otherwise all keywords are written to that
      row in one UPDATE, which the database refuses with `IntegrityError` when
      the new row breaks a column constraint. */
  function UpdateUser(db: Table, userId: int, kw: map<string, Value>): (res: (Table, Outcome))
    requires Valid(db)
    ensures Valid(res.0)
    ensures res.1.Fail? ==> res.0 == db
    ensures Lookup(db, userId).None? ==> res.1 == Fail(NoResultFound)
    ensures Lookup(db, userId).Some? && !KnownKeys(kw) ==> res.1 == Fail(ValueError)
    ensures res.1 == Fail(IntegrityError) <==>
      Lookup(db, userId).Some? && KnownKeys(kw) && !Writable(db, Lookup(db, userId).value, kw)
    ensures res.1.Pass? <==>
      Lookup(db, userId).Some? && KnownKeys(kw) && Writable(db, Lookup(db, userId).value, kw)
    ensures res.1.Pass? ==>
      var u := Lookup(db, userId).value;
      Replaces(db, res.0, userId, Assign(u, kw))
  {
    FindById(db, userId);
    match FindUserBy(db, map["id" := Int(userId)])
    case Err(e) => (db, Fail(e))
    case Ok(u) =>
      if !KnownKeys(kw) then (db, Fail(ValueError))
      else if !Writable(db, u, kw) then (db, Fail(IntegrityError))
      else
        var w := Assign(u, kw);
        var rows := Insert(Remove(db.rows, u.id), w);
        assert Valid(Table(rows));
        (Table(rows), Pass)
  }

  /** The database accepts writing `kw` over row `u`: the columns fit and a
      changed key is not already taken by another row. */
  predicate Writable(db: Table, u: User, kw: map<string, Value>) {
    Fits(u, kw) && (Assign(u, kw).id == u.id || Lookup(db, Assign(u, kw).id).None?)
  }

  /** `u` is the only row holding `v` in column `c`. */
  ghost predicate OnlyHolder(db: Table, c: Column, v: Value, u: User) {
    && u in db.rows
    && Holds(u, c, v)
    && forall x :: x in db.rows && Holds(x, c, v) ==> x == u
  }

  /** At most one row is the lowest-id holder of a value. */
  lemma FirstWithUnique(db: Table, c: Column, v: Value, a: User, b: User)
    requires Ascending(db.rows)
    requires FirstWith(db, c, v, a) && FirstWith(db, c, v, b)
    ensures a == b
  {
    SameIdSameRow(db.rows, a, b);
  }

  /** Replacing a row by one with the same key and the same value in `c`
      keeps it the lowest-id holder of that value. */
  lemma ReplaceKeepsFirst(before: Table, after: Table, u: User, w: User, c: Column, v: Value)
    requires Replaces(before, after, u.id, w) && w.id == u.id
    requires FirstWith(before, c, v, u) && Get(w, c) == Get(u, c)
    ensures FirstWith(after, c, v, w)
  {
    forall x | x in after.rows && Holds(x, c, v) ensures w.id <= x.id {
      if x != w {
        assert x in before.rows;
      }
    }
  }

  /** Replacing the only possible holder of `v` by a row that holds it makes
      that row the only holder. */
  lemma ReplaceMakesOnly(before: Table, after: Table, u: User, w: User, c: Column, v: Value)
    requires Replaces(before, after, u.id, w)
    requires forall x :: x in before.rows && Holds(x, c, v) ==> x.id == u.id
    requires Holds(w, c, v)
    ensures OnlyHolder(after, c, v, w)
  {
    forall x | x in after.rows && Holds(x, c, v) ensures x == w {
      assert (x in before.rows && x.id != u.id) || x == w;
    }
  }

  /** Replacing the only possible holder of `v` by a row that does not hold
      it leaves no holder. */
  lemma ReplaceClears(before: Table, after: Table, u: User, w: User, c: Column, v: Value)
    requires Replaces(before, after, u.id, w)
    requires forall x :: x in before.rows && Holds(x, c, v) ==> x.id == u.id
    requires !Holds(w, c, v)
    ensures NoneWith(after, c, v)
  {
    forall x | x in after.rows ensures !Holds(x, c, v) {
      if x != w {
        assert x in before.rows && x.id != u.id;
      }
    }
  }
}

=== FILE: outcomes.dfy ===
/** Shapes of success and failure shared by the whole model: Python's `None`,
    the exceptions the modelled code raises or lets through, and results of
    calls that either return a value or raise. */
module Outcomes {

  /** A value that may be Python's `None`. */
  datatype Option<+T> = None | Some(value: T)

  /** The exceptions that reach a caller of the modelled code. */
  datatype Error =
    | InvalidRequestError  // a query named an attribute `User` does not have
    | NoResultFound        // no row satisfies a query
    | ValueError           // raised by the service and by `update_user`
    | IntegrityError       // the database refused a write that breaks a column constraint
    | IndexError           // an exclusion entry was empty after stripping

  /** A call that returns a `T` or raises. */
  datatype Result<+T> = Ok(value: T) | Err(error: Error)

  /** A call that returns nothing or raises. */
  datatype Outcome = Pass | Fail(error: Error)
}

=== FILE: session_auth.dfy ===
/** The `Auth` base class of the session-authentication version of the API. */
module SessionAuth {
  import opened Outcomes
  import opened ApiAuth

  /** `Auth.require_auth`: whether a request for `path` must be
      authenticated. A missing path or a missing list of excluded paths
      always requires it; otherwise the first entry that strips to nothing
      raises `IndexError`, the first entry whose pattern matches the path
      lets it through, and a path no entry matches requires it. */
  function RequireAuth(path: Option<string>, excludedPaths: Option<seq<string>>): (r: Result<bool>)
    requires path.Some? && excludedPaths.Some? ==> LiteralEntries(excludedPaths.value)
    ensures path.None? || excludedPaths.None? ==> r == Ok(true)
    ensures path.Some? && excludedPaths.Some? ==> Verdict(path.value, excludedPaths.value, r)
  {
    if path.None? || excludedPaths.None? then Ok(true)
    else Decide(path.value, excludedPaths.value)
  }

  /** `Auth.authorization_header`: the `Authorization` field of the request,
      if there is a request and it has one. */
  function AuthorizationHeader(request: Option<Request>): (r: Option<string>)
    ensures request.None? ==> r.None?
    ensures request.Some? ==> (r.Some? <==> "Authorization" in request.value.headers)
    ensures r.Some? ==> request.Some? && r.value == request.value.headers["Authorization"]
  {
    if request.Some? then Header(request.value, "Authorization") else None
  }

  /** `Auth.current_user`: the base class knows no user. */
  function CurrentUser<U>(request: Option<Request>): (u: Option<U>)
    ensures u.None?
  {
    None
  }
}

=== FILE: user.dfy ===
/** The `User` row of the `users` table: five columns, two of them nullable. */
module UserRecord {
  import opened Outcomes

  type Bytes = seq<bv8>

  /** A Python value bound to a column: `None`, an `int`, a `str` or `bytes`.
      SQLite stores whatever it is given, so a column holds any of them. */
  datatype Value = Null | Int(n: int) | Text(s: string) | Blob(b: Bytes)

  /** The mapped columns of `User`. */
  datatype Column = Id | Email | HashedPassword | SessionId | ResetToken

  /** The attribute name of a column, as a keyword argument spells it. */
  function ColumnName(c: Column): string {
    match c
    case Id => "id"
    case Email => "email"
    case HashedPassword => "hashed_password"
    case SessionId => "session_id"
    case ResetToken => "reset_token"
  }

  /** `hasattr(User, name)`, restricted to the mapped columns: the column an
      attribute name denotes, if any. */
  function ColumnNamed(name: string): (c: Option<Column>)
    ensures c.Some? ==> ColumnName(c.value) == name
    ensures c.None? ==> forall d: Column :: ColumnName(d) != name
  {
    if name == "id" then Some(Id)
    else if name == "email" then Some(Email)
    else if name == "hashed_password" then Some(HashedPassword)
    else if name == "session_id" then Some(SessionId)
    else if name == "reset_token" then Some(ResetToken)
    else None
  }

  /** Every column is found again under its own name. */
  lemma ColumnNameRoundTrip(c: Column)
    ensures ColumnNamed(ColumnName(c)) == Some(c)
  {
  }

  /** `nullable=True` in the column declaration. */
  predicate Nullable(c: Column) {
    c == SessionId || c == ResetToken
  }

  /** One row. The primary key is an integer; the other columns hold any value. */
  datatype User = User(id: int, email: Value, hashedPassword: Value, sessionId: Value, resetToken: Value)

  /** The value a row holds in a column (`getattr(user, name)`). */
  function Get(u: User, c: Column): Value {
    match c
    case Id => Int(u.id)
    case Email => u.email
    case HashedPassword => u.hashedPassword
    case SessionId => u.sessionId
    case ResetToken => u.resetToken
  }

  /** The row satisfies the NOT NULL constraints of its columns. */
  predicate Admissible(u: User) {
    forall c: Column :: !Nullable(c) ==> Get(u, c) != Null
  }

  /** `email` and `hashed_password` are the columns a row can never leave empty;
      `session_id` and `reset_token` may each be empty or not, independently. */
  lemma AdmissibleColumns(u: User)
    ensures Admissible(u) <==> u.email != Null && u.hashedPassword != Null
    ensures Admissible(u) ==> Admissible(u.(sessionId := Null)) && Admissible(u.(resetToken := Null))
  {
    if u.email != Null && u.hashedPassword != Null {
      forall c: Column | !Nullable(c) ensures Get(u, c) != Null {
        match c
        case Id =>
        case Email =>
        case HashedPassword =>
      }
    }
    if Admissible(u) {
      assert Get(u, Email) != Null && Get(u, HashedPassword) != Null;
      assert Admissible(u.(sessionId := Null)) by {
        forall c: Column | !Nullable(c) ensures Get(u.(sessionId := Null), c) != Null {
          assert Get(u.(sessionId := Null), c) == Get(u, c);
        }
      }
      assert Admissible(u.(resetToken := Null)) by {
        forall c: Column | !Nullable(c) ensures Get(u.(resetToken := Null), c) != Null {
          assert Get(u.(resetToken := Null), c) == Get(u, c);
        }
      }
    }
  }

  /** Two rows that agree on every column are the same row. */
  lemma SameColumnsSameUser(a: User, b: User)
    requires forall c: Column :: Get(a, c) == Get(b, c)
    ensures a == b
  {
    assert Get(a, Id) == Get(b, Id);
    assert Get(a, Email) == Get(b, Email);
    assert Get(a, HashedPassword) == Get(b, HashedPassword);
    assert Get(a, SessionId) == Get(b, SessionId);
    assert Get(a, ResetToken) == Get(b, ResetToken);
  }
}
